=== FILE: README.md ===
# OAuth2 token manager — a Dafny model of the credential lifecycle

This project models the core of `oauth2-token-manager` (`lib/index.js`): a small
library that issues access/refresh token pairs and one-time exchange codes,
verifies access tokens, redeems exchange codes and rotates pairs by refresh
token, keeping one record per lookup key in a store the host provides through
serialize/deserialize callbacks.

The model is a state machine over that store:

- `Crypto` — SHA-1 and HMAC-SHA1 are fields of a `Primitives` value: total
  functions that return 40-character strings. Every property holds for ANY such
  pair of functions.
- `Tokens` — the helpers. `EncryptKey` derives the 8-character lookup key.
  `GenerateToken` builds the issued string (key + 32-character tail) and the
  stored digest. `StoredDigest` is the "HMAC under a truthy secret, else the
  string itself" rule. `FinalSecret` folds the redirect URI into the secret.
  `Prefix` is `slice(0, 8)`.
- `TokenManager` — the record and manager datatypes and the five public
  operations. Each one is a pure function from a manager state and its inputs to
  a `Step`, which holds the outcome and the next state. The inputs include the
  current time in seconds and the random salts.
- `Lifecycle` — lemmas that relate operations: issue then verify, the
  exchange-code round trip, refresh rotation, and a well-formedness invariant
  that every trace of operations preserves.

Behaviour of the code that the model keeps:

- JavaScript truthiness: an absent secret and an empty secret behave the same
  way. An absent key secret is replaced by the literal `'secret'`.
- The implicit global `currentTimeSec` is the state field `lastNowSec`. It is assigned without a declaration, so it becomes a property of the global object, shared process-wide; the model keeps one per manager state.
  - `verify` sets it once the record has been read.
  - `exchange` sets it only after the digest check has passed, even if the code
    then turns out to be stale.
  - `refresh` stamps the new record's `createdAt` with it. The variable is never
    declared, so a `refresh` before any `verify`/`exchange` has assigned it
    throws a ReferenceError while building the serialize call, and nothing is
    written (`CurrentTimeUndefined`).
- `refresh` checks no freshness and drops the user data.
- `exchange` issues the new pair under the original secret, not under the
  redirect-bound one.
- `verify` on a missing record throws a TypeError (`RecordMissing`) before it
  sets `currentTimeSec`. Its doc comment (lib/index.js:79) speaks only of
  resolving with true or false; the model follows the code, which throws.
- A missing serialize callback throws a TypeError inside `exchange`/`refresh`.
  This is `SerializeNotCallable`, and in `exchange` it comes after
  `currentTimeSec` has been updated.
- With an empty redirect URI and no secret, `generateExchangeCode` stores the
  code in plain text, while `exchange` always compares an HMAC (keyed by the
  empty string). `Lifecycle.EmptyRedirectCodeNeedsFixedPoint` states the
  consequence.

## Model

| member | source | states |
|---|---|---|
| Tokens.Prefix | lib/index.js:87 | the lookup key named by a presented string is its first 8 characters, or the whole string when it is shorter, and it is a prefix of that string |
| Tokens.EncryptKey | lib/index.js:260-262 | the lookup key is always 8 characters long and is a prefix of the HMAC of the identifier under the secret, or under `'secret'` when the secret is falsy |
| Tokens.Tail | lib/index.js:253-255 | the random tail of a token is 32 characters long |
| Tokens.GenerateToken | lib/index.js:252-258 | the issued string is the key followed by the 32-character tail, and its stored value is what verification recomputes from it |
| Tokens.IssuedTokenShape | lib/index.js:252-258 | under an 8-character key the issued token is 40 characters long and its first 8 characters give back the key |
| Tokens.StoredDigestShape | lib/index.js:256 | under a truthy secret the stored value is a 40-character HMAC; otherwise it is the issued string itself |
| Tokens.TokensDifferIffTailsDiffer | lib/index.js:253-255 | two tokens under the same key are equal if and only if their salts hash to the same tail |
| Tokens.FalsySecretKeysCollide | lib/index.js:261 | an absent secret, an empty secret and the literal `'secret'` all derive the same lookup key |
| Tokens.SameSecretOtherUri | lib/index.js:57 | under one secret, distinct redirect URIs give distinct exchange secrets |
| Tokens.SecretFoldsIntoRedirect | lib/index.js:57 | the secret `s` with redirect URI `u` gives the same exchange secret as no secret with redirect URI made of `s`, a vertical bar and `u` |
| Tokens.FinalSecretFolding | lib/index.js:57 | without a truthy secret, the exchange secret is the redirect URI alone; with one, it starts with the secret; it is truthy if and only if the secret is truthy or the URI is non-empty |
| TokenManager.IssuePair | lib/index.js:132-133 | both tokens of a pair start with the lookup key and have equal length; they coincide if and only if their tails do |
| TokenManager.GenerateAccessToken | lib/index.js:21-42 | throws without a serialize callback and leaves the state alone; otherwise returns two 40-character tokens with the derived key as their common prefix, distinct if and only if their tails differ, and overwrites only the record at that key with both digests, `now`, the access lifetime and the user data |
| TokenManager.GenerateExchangeCode | lib/index.js:53-71 | throws without a serialize callback; otherwise returns a 40-character code whose prefix is the key derived under the redirect-bound secret, and overwrites only that record with no access digest, the code's digest under that secret, `now`, the exchange lifetime and the user data |
| TokenManager.Verify | lib/index.js:83-99 | never changes the store; throws without a deserialize callback or when no record exists, leaving the state alone; otherwise valid if and only if the recomputed digest is the stored access digest and `now < createdAt + expiresIn`; returns the stored user data and records `now` as the last time |
| TokenManager.Exchange | lib/index.js:109-153 | returns null and keeps the store when the record is missing, the HMAC under the redirect-bound secret differs from `code2`, or the record has expired; succeeds if and only if all three checks pass and a serialize callback exists; on success it overwrites only that record with a new pair under the original secret, `now`, the access lifetime and the old user data; sets the last time exactly when the digest matched |
| TokenManager.Refresh | lib/index.js:162-201 | never touches the last time; returns null and keeps the store on a missing record or when the recomputed digest differs from `code2`; on a match before `currentTimeSec` was ever assigned it throws and keeps the state; succeeds if and only if the digest matches, `currentTimeSec` is set and a serialize callback exists, whatever the record's age; on success it overwrites that record with a new pair under the same key, `createdAt` set to the last time, the access lifetime and no user data |
| Lifecycle.AccessTokenVerifiesWhileFresh | lib/index.js:91-96 | right after issuance, verifying the access token with the same secret returns its user data and is valid if and only if the check time is before issuance time plus the access lifetime |
| Lifecycle.ExchangeCodeIsNotAnAccessToken | lib/index.js:62-64 | an exchange code never verifies as an access token, under any secret and at any time |
| Lifecycle.ExchangeRoundTrip | lib/index.js:119-141 | redeeming a code with its own redirect URI and secret succeeds if and only if the code is still fresh; the access token obtained then verifies under the original secret at that time, with the code's user data |
| Lifecycle.EmptyRedirectCodeNeedsFixedPoint | lib/index.js:122-125 | with an empty redirect URI and no secret, a code can be redeemed only if its HMAC under the empty key equals the code itself |
| Lifecycle.ExchangeRejectsOtherBinding | lib/index.js:122-125 | a code presented with a binding whose joined exchange secret differs from the issuing one is rejected and the store is unchanged, given that HMAC keeps those two keys apart on the code |
| Lifecycle.WrongRedirectRejected | lib/index.js:122-125 | the same secret with another redirect URI is rejected and the store is unchanged, given that HMAC keeps the two exchange secrets apart on the code |
| Lifecycle.FoldedSecretRedeems | lib/index.js:122-129 | a code issued under secret `s` and redirect URI `u` is redeemed with no secret and redirect URI made of `s`, a vertical bar and `u` if and only if it is still fresh |
| Lifecycle.CodeRedeemedByRefresh | lib/index.js:172-187 | once `currentTimeSec` is set, `refresh` accepts an exchange code under its exchange secret at any time, and writes a pair record without the code's user data |
| Lifecycle.ExchangeCodeSingleUse | lib/index.js:132-139 | after a successful redemption, the same code is rejected and the state is unchanged, unless its HMAC equals the digest of the refresh token that replaced it |
| Lifecycle.RefreshIgnoresExpiry | lib/index.js:172-177 | once `currentTimeSec` is set, a matching refresh token is honoured even when its record has expired, and the new access token keeps the lookup key |
| Lifecycle.RefreshedTokenVerifiesAgainstLastTime | lib/index.js:183-187 | a successful refresh implies `currentTimeSec` was set, and the refreshed access token verifies if and only if the check time is before that last time plus the access lifetime; its user data is gone |
| Lifecycle.ApplyPreserves | lib/index.js:21-201 | every operation keeps the store well formed (8-character keys, 40-character digests, lifetimes matching the record kind), never removes a key, and leaves the callbacks and lifetimes unchanged |
| Lifecycle.LoadedLifetimes | lib/index.js:218-219 | from the module as loaded with both callbacks registered, every record left by any sequence of operations lives 43200 seconds if it holds an access digest and 3600 seconds if it is an exchange code |
| Lifecycle.Run | lib/index.js:21-201 | over any sequence of operations, a well-formed store stays well formed, keys are only ever added, and callbacks and lifetimes persist |

## Left out

- SHA-1, HMAC-SHA1 and `Math.random` internals: the hashes are parameters and the salts are inputs, so the distinctness of an access token and its refresh token is stated as "the tails differ", not proven.
- Lifecycle.ExchangeRejectsOtherBinding: assumes that HMAC keeps the two exchange secrets apart on the code, because the hash is uninterpreted. Distinct bindings can still share one exchange secret, since the secret and URI are joined without escaping; `Lifecycle.FoldedSecretRedeems` shows that case.
- Lifecycle.WrongRedirectRejected: carries the same HMAC premise, for the same reason.
- Lifecycle.ExchangeCodeSingleUse: assumes that the code's HMAC differs from the new refresh digest, for the same reason.
- The registration functions `serialize`/`deserialize` (lib/index.js:207-217): they are two flags in the manager state. The host's storage is a map that the serialize callback overwrites and that the deserialize callback reads, resolving the record, or `undefined`/`null` for a missing key. An adapter that fails, resolves `false` from a store, or rejects on a missing key is not modelled. The module's test adapter is one of these: it wraps the lookup in `Q.all`, which rejects for `undefined` (test.js:22-24), so there `exchange` and `refresh` on an unknown prefix reject instead of resolving null.
- Promise/Q chaining and `.spread`: each operation is one synchronous step.
- `Math.round(date.getTime()/1000)`: the current time is an integer number of seconds given as input.
- Concurrent redemption (the read-then-overwrite race in exchange/refresh): the model is sequential.
- Non-string inputs, such as an undefined token whose `slice` throws.
- String-typed `createdAt`/`expiresIn`: the model takes both as the numbers the module itself passes to serialize (lib/index.js:33-34, 65-66, 137-138, 186-187). The callbacks' doc comments declare them as strings (lib/index.js:230-231, 274-275). A store that returns strings makes `+` at lib/index.js:96 and :129 concatenate them, which leaves a record valid indefinitely; that case is not modelled.
- The documentation build (gulpfile.js) and the test harness (test.js).

=== FILE: lifecycle.dfy ===
/**
 * Properties that relate several operations of the token manager: issuance
 * followed by verification, the exchange-code round trip, rotation by refresh,
 * and an invariant that every sequence of operations preserves.
 */
module Lifecycle {
  import opened Wrappers
  import opened Crypto
  import opened Tokens
  import opened TokenManager

  /** Both callbacks registered: no operation throws for want of one. */
  predicate Wired(m: Manager) {
    m.serializeSet && m.deserializeSet
  }

  /** A freshly issued access token verifies, with its user data, exactly while its record is fresh. */
  lemma AccessTokenVerifiesWhileFresh(h: Primitives, m: Manager, key: string, userData: Option<UserData>,
                                      secret: Option<string>, now: int, accessSalt: string,
                                      refreshSalt: string, later: int)
    requires Wired(m)
    ensures
      var g := GenerateAccessToken(h, m, key, userData, secret, now, accessSalt, refreshSalt);
      Verify(h, g.next, g.out.value.accessToken, secret, later).out
        == Ok(Verdict(later < now + m.policy.accessTokenExpTimeSec, userData))
  {
  }

  /** An exchange code never verifies as an access token: its record has no access digest. */
  lemma ExchangeCodeIsNotAnAccessToken(h: Primitives, m: Manager, key: string, redirectUri: string,
                                       userData: Option<UserData>, secret: Option<string>, now: int,
                                       salt: string, tokenSecret: Option<string>, later: int)
    requires Wired(m)
    ensures
      var g := GenerateExchangeCode(h, m, key, redirectUri, userData, secret, now, salt);
      Verify(h, g.next, g.out.value, tokenSecret, later).out == Ok(Verdict(false, userData))
  {
  }

  /**
   * The exchange-code round trip: redeeming a code with the redirect URI and secret it was
   * issued for succeeds exactly while it is fresh (when the redirect-bound secret is
   * non-empty), and the access token it yields then verifies under the original secret.
   */
  lemma ExchangeRoundTrip(h: Primitives, m: Manager, key: string, redirectUri: string,
                          userData: Option<UserData>, secret: Option<string>, now: int, salt: string,
                          later: int, accessSalt: string, refreshSalt: string)
    requires Wired(m)
    requires Truthy(secret) || redirectUri != ""
    requires m.policy.accessTokenExpTimeSec > 0
    ensures
      var g := GenerateExchangeCode(h, m, key, redirectUri, userData, secret, now, salt);
      var e := Exchange(h, g.next, g.out.value, redirectUri, secret, later, accessSalt, refreshSalt);
      && e.out.Ok?
      && (e.out.value.Some? <==> later < now + m.policy.exchangeCodeExpTimeSec)
      && (e.out.value.Some? ==>
            Verify(h, e.next, e.out.value.value.accessToken, secret, later).out == Ok(Verdict(true, userData)))
  {
  }

  /**
   * When the redirect URI is empty and no secret is given, the code is stored in plain
   * while `exchange` compares its HMAC under the empty key: redemption can only succeed
   * if that HMAC happens to equal the code itself.
   */
  lemma EmptyRedirectCodeNeedsFixedPoint(h: Primitives, m: Manager, key: string, userData: Option<UserData>,
                                         secret: Option<string>, now: int, salt: string, later: int,
                                         accessSalt: string, refreshSalt: string)
    requires Wired(m)
    requires !Truthy(secret)
    ensures
      var g := GenerateExchangeCode(h, m, key, "", userData, secret, now, salt);
      var e := Exchange(h, g.next, g.out.value, "", secret, later, accessSalt, refreshSalt);
      e.out.Ok? && e.out.value.Some? ==> h.hmacSha1("", g.out.value) == g.out.value
  {
  }

  /**
   * A code presented with another binding is rejected, leaving the store as it was,
   * when that binding's exchange secret differs from the one the code was issued
   * under and HMAC keeps the two secrets apart on this code.
   */
  lemma ExchangeRejectsOtherBinding(h: Primitives, m: Manager, key: string, redirectUri: string,
                                    userData: Option<UserData>, secret: Option<string>, now: int, salt: string,
                                    otherUri: string, otherSecret: Option<string>, later: int,
                                    accessSalt: string, refreshSalt: string)
    requires Wired(m)
    requires Truthy(secret) || redirectUri != ""
    requires FinalSecret(otherSecret, otherUri) != FinalSecret(secret, redirectUri)
    requires KeysSeparate(h, FinalSecret(otherSecret, otherUri), FinalSecret(secret, redirectUri),
                          GenerateExchangeCode(h, m, key, redirectUri, userData, secret, now, salt).out.value)
    ensures
      var g := GenerateExchangeCode(h, m, key, redirectUri, userData, secret, now, salt);
      Exchange(h, g.next, g.out.value, otherUri, otherSecret, later, accessSalt, refreshSalt) == Step(Ok(None), g.next)
  {
    FinalSecretFolding(secret, redirectUri);
  }

  /**
   * The wrong-redirect case: the same secret with another redirect URI is rejected,
   * with the store unchanged, whenever HMAC keeps the two exchange secrets apart.
   */
  lemma WrongRedirectRejected(h: Primitives, m: Manager, key: string, redirectUri: string,
                              userData: Option<UserData>, secret: Option<string>, now: int, salt: string,
                              otherUri: string, later: int, accessSalt: string, refreshSalt: string)
    requires Wired(m)
    requires Truthy(secret) || redirectUri != ""
    requires otherUri != redirectUri
    requires KeysSeparate(h, FinalSecret(secret, otherUri), FinalSecret(secret, redirectUri),
                          GenerateExchangeCode(h, m, key, redirectUri, userData, secret, now, salt).out.value)
    ensures
      var g := GenerateExchangeCode(h, m, key, redirectUri, userData, secret, now, salt);
      Exchange(h, g.next, g.out.value, otherUri, secret, later, accessSalt, refreshSalt) == Step(Ok(None), g.next)
  {
    SameSecretOtherUri(secret, otherUri, redirectUri);
    ExchangeRejectsOtherBinding(h, m, key, redirectUri, userData, secret, now, salt,
                                otherUri, secret, later, accessSalt, refreshSalt);
  }

  /**
   * Because the secret and the redirect URI are joined without escaping, a code issued
   * under secret `s` and redirect URI `u` is also redeemed, while fresh, with no secret
   * and the redirect URI `s|u`.
   */
  lemma FoldedSecretRedeems(h: Primitives, m: Manager, key: string, redirectUri: string,
                            userData: Option<UserData>, secret: Option<string>, now: int, salt: string,
                            later: int, accessSalt: string, refreshSalt: string)
    requires Wired(m)
    requires Truthy(secret)
    ensures
      var g := GenerateExchangeCode(h, m, key, redirectUri, userData, secret, now, salt);
      var e := Exchange(h, g.next, g.out.value, secret.value + "|" + redirectUri, None, later, accessSalt, refreshSalt);
      && e.out.Ok?
      && (e.out.value.Some? <==> later < now + m.policy.exchangeCodeExpTimeSec)
  {
  }

  /**
   * An exchange code is also accepted by `refresh` under its exchange secret: its stored
   * digest is what `refresh` recomputes under that secret (the HMAC, or the plain code
   * when the secret is empty), and `refresh` checks no expiry. Once
   * `currentTimeSec` is assigned, the code is rotated into a pair at any later time,
   * and the pair's record drops the code's user data.
   */
  lemma CodeRedeemedByRefresh(h: Primitives, m: Manager, key: string, redirectUri: string,
                              userData: Option<UserData>, secret: Option<string>, now: int, salt: string,
                              accessSalt: string, refreshSalt: string)
    requires Wired(m)
    requires m.lastNowSec.Some?
    ensures
      var g := GenerateExchangeCode(h, m, key, redirectUri, userData, secret, now, salt);
      var s := Refresh(h, g.next, g.out.value, Some(FinalSecret(secret, redirectUri)), accessSalt, refreshSalt);
      && s.out.Ok? && s.out.value.Some?
      && s.next.storage[Prefix(g.out.value)].code1.Some?
      && s.next.storage[Prefix(g.out.value)].userData == None
  {
    FinalSecretFolding(secret, redirectUri);
  }

  /**
   * An exchange code is single-use by replacement: once redeemed, presenting it again
   * fails unless its HMAC equals the digest of the refresh token that replaced it.
   */
  lemma ExchangeCodeSingleUse(h: Primitives, m: Manager, code: string, redirectUri: string, secret: Option<string>,
                              now: int, accessSalt: string, refreshSalt: string,
                              later: int, accessSalt2: string, refreshSalt2: string)
    requires
      var e := Exchange(h, m, code, redirectUri, secret, now, accessSalt, refreshSalt);
      && e.out.Ok? && e.out.value.Some?
      && h.hmacSha1(FinalSecret(secret, redirectUri), code) != StoredDigest(h, secret, e.out.value.value.refreshToken)
    ensures
      var e := Exchange(h, m, code, redirectUri, secret, now, accessSalt, refreshSalt);
      Exchange(h, e.next, code, redirectUri, secret, later, accessSalt2, refreshSalt2) == Step(Ok(None), e.next)
  {
  }

  /**
   * `refresh` does not look at the record's age: once `currentTimeSec` has been
   * assigned, a refresh token whose record has expired is still honoured, and the
   * rotated pair keeps the lookup key.
   */
  lemma RefreshIgnoresExpiry(h: Primitives, m: Manager, refreshToken: string, secret: Option<string>,
                             now: int, accessSalt: string, refreshSalt: string)
    requires Wired(m)
    requires Prefix(refreshToken) in m.storage
    requires m.storage[Prefix(refreshToken)].code2 == StoredDigest(h, secret, refreshToken)
    requires m.lastNowSec.Some?
    requires !Fresh(m.storage[Prefix(refreshToken)], now)
    ensures
      var s := Refresh(h, m, refreshToken, secret, accessSalt, refreshSalt);
      s.out.Ok? && s.out.value.Some? && Prefix(refreshToken) <= s.out.value.value.accessToken
  {
  }

  /**
   * A refresh succeeds only once `currentTimeSec` has been assigned, and the new access
   * token then verifies exactly while that time, as last set by `verify`/`exchange`,
   * plus the access lifetime lies ahead, not the time of the refresh; its user data is gone.
   */
  lemma RefreshedTokenVerifiesAgainstLastTime(h: Primitives, m: Manager, refreshToken: string,
                                              secret: Option<string>, accessSalt: string, refreshSalt: string,
                                              later: int)
    requires |Prefix(refreshToken)| == KeyLength
    requires
      var s := Refresh(h, m, refreshToken, secret, accessSalt, refreshSalt);
      s.out.Ok? && s.out.value.Some?
    ensures
      var s := Refresh(h, m, refreshToken, secret, accessSalt, refreshSalt);
      && m.lastNowSec.Some?
      && Verify(h, s.next, s.out.value.value.accessToken, secret, later).out
           == Ok(Verdict(later < m.lastNowSec.value + m.policy.accessTokenExpTimeSec, None))
  {
  }

  /** One call of a public operation, with the clock reading and salts it consumes. */
  datatype Op =
    | GenAccess(key: string, userData: Option<UserData>, secret: Option<string>, now: int,
                accessSalt: string, refreshSalt: string)
    | GenCode(key: string, redirectUri: string, userData: Option<UserData>, secret: Option<string>,
              now: int, salt: string)
    | Check(token: string, secret: Option<string>, now: int)
    | Redeem(code: string, redirectUri: string, secret: Option<string>, now: int,
             accessSalt: string, refreshSalt: string)
    | Rotate(refreshToken: string, secret: Option<string>, accessSalt: string, refreshSalt: string)

  /** The state one operation leaves behind, whatever it returns. */
  function Apply(h: Primitives, m: Manager, op: Op): Manager {
    match op
    case GenAccess(key, ud, sec, now, a, r) => GenerateAccessToken(h, m, key, ud, sec, now, a, r).next
    case GenCode(key, uri, ud, sec, now, salt) => GenerateExchangeCode(h, m, key, uri, ud, sec, now, salt).next
    case Check(token, sec, now) => Verify(h, m, token, sec, now).next
    case Redeem(code, uri, sec, now, a, r) => Exchange(h, m, code, uri, sec, now, a, r).next
    case Rotate(token, sec, a, r) => Refresh(h, m, token, sec, a, r).next
  }

  /**
   * The shape every store built by the operations has: 8-character lookup keys,
   * 40-character digests, and lifetimes that tell the record kinds apart
   * (an exchange-code record has no access digest and the exchange lifetime).
   */
  ghost predicate WellFormed(m: Manager) {
    forall k | k in m.storage ::
      var r := m.storage[k];
      && |k| == KeyLength
      && |r.code2| == TokenLength
      && (r.code1.Some? ==> |r.code1.value| == TokenLength && r.expiresIn == m.policy.accessTokenExpTimeSec)
      && (r.code1.None? ==> r.expiresIn == m.policy.exchangeCodeExpTimeSec)
  }

  /** A pair record written under an 8-character key has the well-formed shape. */
  lemma PairRecordShape(h: Primitives, secret: Option<string>, k: string, pair: TokenPair,
                        createdAt: int, expiresIn: int, userData: Option<UserData>)
    requires |k| == KeyLength && |pair.accessToken| == |pair.refreshToken| == |k| + TailLength
    ensures
      var r := PairRecord(h, secret, pair, createdAt, expiresIn, userData);
      && |r.code2| == TokenLength && r.code1.Some? && |r.code1.value| == TokenLength
  {
    StoredDigestShape(h, secret, pair.accessToken);
    StoredDigestShape(h, secret, pair.refreshToken);
  }

  /** Every operation keeps the store well formed, never drops a key and leaves the wiring alone. */
  lemma ApplyPreserves(h: Primitives, m: Manager, op: Op)
    ensures WellFormed(m) ==> WellFormed(Apply(h, m, op))
    ensures m.storage.Keys <= Apply(h, m, op).storage.Keys
    ensures Apply(h, m, op).policy == m.policy
    ensures Apply(h, m, op).serializeSet == m.serializeSet && Apply(h, m, op).deserializeSet == m.deserializeSet
  {
    if WellFormed(m) {
      match op
      case GenAccess(key, ud, sec, now, a, r) =>
        var g := GenerateAccessToken(h, m, key, ud, sec, now, a, r);
        if g.out.Ok? {
          PairRecordShape(h, sec, EncryptKey(h, key, sec), g.out.value, now, m.policy.accessTokenExpTimeSec, ud);
        }
      case GenCode(key, uri, ud, sec, now, salt) =>
        var g := GenerateExchangeCode(h, m, key, uri, ud, sec, now, salt);
        if g.out.Ok? {
          StoredDigestShape(h, Some(FinalSecret(sec, uri)), g.out.value);
        }
      case Check(token, sec, now) =>
      case Redeem(code, uri, sec, now, a, r) =>
        var e := Exchange(h, m, code, uri, sec, now, a, r);
        if e.out.Ok? && e.out.value.Some? {
          var k := Prefix(code);
          PairRecordShape(h, sec, k, e.out.value.value, now, m.policy.accessTokenExpTimeSec, m.storage[k].userData);
        }
      case Rotate(token, sec, a, r) =>
        var s := Refresh(h, m, token, sec, a, r);
        if s.out.Ok? && s.out.value.Some? {
          var k := Prefix(token);
          PairRecordShape(h, sec, k, s.out.value.value, m.lastNowSec.value, m.policy.accessTokenExpTimeSec, None);
        }
    }
  }

  /**
   * The state after a sequence of operations. Over any trace, a well-formed store
   * stays well formed, keys are only ever added, and wiring and lifetimes persist.
   */
  function Run(h: Primitives, m: Manager, ops: seq<Op>): (m': Manager)
    ensures WellFormed(m) ==> WellFormed(m')
    ensures m.storage.Keys <= m'.storage.Keys
    ensures m'.policy == m.policy
    ensures m'.serializeSet == m.serializeSet && m'.deserializeSet == m.deserializeSet
    decreases |ops|
  {
    if ops == [] then m
    else
      var next := Apply(h, m, ops[0]);
      ApplyPreserves(h, m, ops[0]);
      Run(h, next, ops[1..])
  }

  /** The module as loaded with both callbacks registered: an empty store, `currentTimeSec` unassigned, the shipped lifetimes. */
  function Loaded(): Manager {
    Manager(map[], None, true, true, DefaultPolicy)
  }

  /**
   * Starting from the module as loaded, every record that any sequence of operations
   * leaves in the store lives 12 hours (a pair) or 1 hour (an exchange code).
   */
  lemma LoadedLifetimes(h: Primitives, ops: seq<Op>)
    ensures forall k | k in Run(h, Loaded(), ops).storage ::
      var r := Run(h, Loaded(), ops).storage[k];
      && (r.code1.Some? ==> r.expiresIn == 43200)
      && (r.code1.None? ==> r.expiresIn == 3600)
  {
    assert WellFormed(Loaded());
  }
}

=== FILE: manager.dfy ===
/**
 * The credential lifecycle of lib/index.js as a state machine over the key-value
 * store that the host's serialize/deserialize callbacks implement. Each public
 * operation is one synchronous step from a manager state (and its inputs, the
 * current time in seconds and the random salts) to an outcome and a new state.
 */
module TokenManager {
  import opened Wrappers
  import opened Crypto
  import opened Tokens

  /** The opaque user data a host attaches to a credential. */
  datatype UserData = UserData(json: string)

  /**
   * One stored object. `code1` is the access-token digest (null for an exchange
   * code), `code2` the refresh-token or exchange-code digest.
   */
  datatype Record = Record(
    code1: Option<string>,
    code2: string,
    createdAt: int,
    expiresIn: int,
    userData: Option<UserData>)

  /** The module's overridable lifetimes, in seconds. */
  datatype Policy = Policy(accessTokenExpTimeSec: int, exchangeCodeExpTimeSec: int)

  /** The lifetimes the module ships with: 12 hours for access tokens, 1 hour for exchange codes. */
  const DefaultPolicy := Policy(43200, 3600)

  /**
   * Everything an operation reads or writes: the store, the implicit global
   * `currentTimeSec` (shared process-wide; None until `verify` or `exchange` first
   * assigns it), whether the serialize and deserialize callbacks are registered,
   * and the lifetimes.
   */
  datatype Manager = Manager(
    storage: map<string, Record>,
    lastNowSec: Option<int>,
    serializeSet: bool,
    deserializeSet: bool,
    policy: Policy)

  /** The errors an operation throws instead of resolving. */
  datatype Error =
    | SerializeCallbackRequired    // 'Serialize callback required'
    | DeserializeCallbackRequired  // 'Deserialize callback required'
    | RecordMissing                // `verify` reads `code1` of an undefined object
    | SerializeNotCallable         // `exchange`/`refresh` call a serialize callback that is not set
    | CurrentTimeUndefined         // `refresh` reads `currentTimeSec` before anything has assigned it

  /** An access token and its paired refresh token, as issued to the caller. */
  datatype TokenPair = TokenPair(accessToken: string, refreshToken: string)

  /** What `verify` resolves with: the verdict and the stored user data. */
  datatype Verdict = Verdict(valid: bool, userData: Option<UserData>)

  /** The outcome of one operation together with the state it leaves behind. */
  datatype Step<T> = Step(out: Result<T, Error>, next: Manager)

  /** A record is fresh at `now` while `now < createdAt + expiresIn`. */
  predicate Fresh(r: Record, now: int) {
    now < r.createdAt + r.expiresIn
  }

  /** The record an access/refresh pair is persisted as. */
  function PairRecord(h: Primitives, secret: Option<string>, pair: TokenPair, createdAt: int,
                      expiresIn: int, userData: Option<UserData>): Record
  {
    Record(Some(StoredDigest(h, secret, pair.accessToken)), StoredDigest(h, secret, pair.refreshToken),
           createdAt, expiresIn, userData)
  }

  /** Issues a fresh access/refresh pair under `encryptedKey`. */
  function IssuePair(h: Primitives, encryptedKey: string, secret: Option<string>,
                     accessSalt: string, refreshSalt: string): (pair: TokenPair)
    ensures encryptedKey <= pair.accessToken && encryptedKey <= pair.refreshToken
    ensures |pair.accessToken| == |pair.refreshToken| == |encryptedKey| + TailLength
    ensures pair.accessToken == pair.refreshToken <==> Tail(h, accessSalt) == Tail(h, refreshSalt)
  {
    TokensDifferIffTailsDiffer(h, encryptedKey, accessSalt, refreshSalt, secret);
    TokenPair(GenerateToken(h, encryptedKey, accessSalt, secret).toIssue,
              GenerateToken(h, encryptedKey, refreshSalt, secret).toIssue)
  }

  /**
   * `generateAccessToken(key, userData, secret)`: overwrites the record at the
   * derived lookup key with a new pair stamped `now`, and returns the pair.
   */
  function GenerateAccessToken(h: Primitives, m: Manager, key: string, userData: Option<UserData>,
                               secret: Option<string>, now: int, accessSalt: string, refreshSalt: string)
    : (s: Step<TokenPair>)
    ensures !m.serializeSet ==> s == Step(Err(SerializeCallbackRequired), m)
    ensures m.serializeSet ==> s.out.Ok?
    ensures s.out.Ok? ==>
      var pair := s.out.value;
      var k := EncryptKey(h, key, secret);
      && |pair.accessToken| == TokenLength && |pair.refreshToken| == TokenLength
      && Prefix(pair.accessToken) == k && Prefix(pair.refreshToken) == k
      && (pair.accessToken != pair.refreshToken <==> Tail(h, accessSalt) != Tail(h, refreshSalt))
      && s.next == m.(storage := m.storage[k := PairRecord(h, secret, pair, now,
                                                           m.policy.accessTokenExpTimeSec, userData)])
  {
    if !m.serializeSet then Step(Err(SerializeCallbackRequired), m)
    else
      var k := EncryptKey(h, key, secret);
      var pair := IssuePair(h, k, secret, accessSalt, refreshSalt);
      var rec := PairRecord(h, secret, pair, now, m.policy.accessTokenExpTimeSec, userData);
      Step(Ok(pair), m.(storage := m.storage[k := rec]))
  }

  /**
   * `generateExchangeCode(key, redirectUri, userData, secret)`: the lookup key and the
   * digest are both taken under the redirect-bound secret; the record holds no access digest.
   */
  function GenerateExchangeCode(h: Primitives, m: Manager, key: string, redirectUri: string,
                                userData: Option<UserData>, secret: Option<string>, now: int, salt: string)
    : (s: Step<string>)
    ensures !m.serializeSet ==> s == Step(Err(SerializeCallbackRequired), m)
    ensures m.serializeSet ==> s.out.Ok?
    ensures s.out.Ok? ==>
      var code := s.out.value;
      var fs := Some(FinalSecret(secret, redirectUri));
      var k := EncryptKey(h, key, fs);
      && |code| == TokenLength && Prefix(code) == k
      && s.next == m.(storage := m.storage[k := Record(None, StoredDigest(h, fs, code), now,
                                                       m.policy.exchangeCodeExpTimeSec, userData)])
  {
    if !m.serializeSet then Step(Err(SerializeCallbackRequired), m)
    else
      var fs := Some(FinalSecret(secret, redirectUri));
      var k := EncryptKey(h, key, fs);
      var t := GenerateToken(h, k, salt, fs);
      Step(Ok(t.toIssue), m.(storage := m.storage[k := Record(None, t.toStore, now,
                                                                m.policy.exchangeCodeExpTimeSec, userData)]))
  }

  /**
   * `verify(token, secret)`: valid when the recomputed digest is the stored access
   * digest and the record is fresh. Never writes the store; records `now` as
   * `currentTimeSec` once the record has been read.
   */
  function Verify(h: Primitives, m: Manager, token: string, secret: Option<string>, now: int)
    : (s: Step<Verdict>)
    ensures s.next.storage == m.storage
    ensures !m.deserializeSet ==> s == Step(Err(DeserializeCallbackRequired), m)
    ensures m.deserializeSet && Prefix(token) !in m.storage ==> s == Step(Err(RecordMissing), m)
    ensures m.deserializeSet && Prefix(token) in m.storage ==>
      var r := m.storage[Prefix(token)];
      && s.out.Ok?
      && (s.out.value.valid <==> r.code1 == Some(StoredDigest(h, secret, token)) && Fresh(r, now))
      && s.out.value.userData == r.userData
      && s.next == m.(lastNowSec := Some(now))
  {
    if !m.deserializeSet then Step(Err(DeserializeCallbackRequired), m)
    else
      var k := Prefix(token);
      if k !in m.storage then Step(Err(RecordMissing), m)
      else
        var r := m.storage[k];
        var matches := Some(StoredDigest(h, secret, token)) == r.code1;
        Step(Ok(Verdict(matches && Fresh(r, now), r.userData)), m.(lastNowSec := Some(now)))
  }

  /**
   * `exchange(code, redirectUri, secret)`: redeems an exchange code for a new pair
   * issued under the original `secret`, in place of the record at the code's prefix.
   * A missing record, a digest mismatch or an expired record resolve with None.
   */
  function Exchange(h: Primitives, m: Manager, code: string, redirectUri: string, secret: Option<string>,
                    now: int, accessSalt: string, refreshSalt: string)
    : (s: Step<Option<TokenPair>>)
    ensures !m.deserializeSet ==> s == Step(Err(DeserializeCallbackRequired), m)
    ensures m.deserializeSet && Prefix(code) !in m.storage ==> s == Step(Ok(None), m)
    ensures m.deserializeSet && Prefix(code) in m.storage ==>
      var k := Prefix(code);
      var r := m.storage[k];
      var matches := h.hmacSha1(FinalSecret(secret, redirectUri), code) == r.code2;
      && (!matches ==> s == Step(Ok(None), m))
      && (matches ==> s.next.lastNowSec == Some(now))
      && (matches && !Fresh(r, now) ==> s == Step(Ok(None), m.(lastNowSec := Some(now))))
      && (matches && Fresh(r, now) && !m.serializeSet ==>
            s == Step(Err(SerializeNotCallable), m.(lastNowSec := Some(now))))
      && (s.out == Ok(None) || s.out.Err? ==> s.next.storage == m.storage)
      && (s.out.Ok? && s.out.value.Some? <==> matches && Fresh(r, now) && m.serializeSet)
      && (s.out.Ok? && s.out.value.Some? ==>
            var pair := s.out.value.value;
            && k <= pair.accessToken && k <= pair.refreshToken
            && |pair.accessToken| == |pair.refreshToken| == |k| + TailLength
            && s.next == m.(lastNowSec := Some(now),
                            storage := m.storage[k := PairRecord(h, secret, pair, now,
                                                                 m.policy.accessTokenExpTimeSec, r.userData)]))
  {
    if !m.deserializeSet then Step(Err(DeserializeCallbackRequired), m)
    else
      var k := Prefix(code);
      if k !in m.storage then Step(Ok(None), m)
      else
        var r := m.storage[k];
        if h.hmacSha1(FinalSecret(secret, redirectUri), code) != r.code2 then Step(Ok(None), m)
        else
          var m1 := m.(lastNowSec := Some(now));
          if !Fresh(r, now) then Step(Ok(None), m1)
          else if !m.serializeSet then Step(Err(SerializeNotCallable), m1)
          else
            var pair := IssuePair(h, k, secret, accessSalt, refreshSalt);
            var rec := PairRecord(h, secret, pair, now, m.policy.accessTokenExpTimeSec, r.userData);
            Step(Ok(Some(pair)), m1.(storage := m.storage[k := rec]))
  }

  /**
   * `refresh(refreshToken, secret)`: rotates the pair at the token's prefix when the
   * recomputed digest is the stored refresh digest, whatever the record's age. The new
   * record is stamped with `currentTimeSec` as last assigned by `verify`/`exchange`,
   * and carries no user data; before any such assignment, reading the undeclared
   * global throws and nothing is written. Reads no clock and never sets `currentTimeSec`.
   */
  function Refresh(h: Primitives, m: Manager, refreshToken: string, secret: Option<string>,
                   accessSalt: string, refreshSalt: string)
    : (s: Step<Option<TokenPair>>)
    ensures s.next.lastNowSec == m.lastNowSec
    ensures !m.deserializeSet ==> s == Step(Err(DeserializeCallbackRequired), m)
    ensures m.deserializeSet && Prefix(refreshToken) !in m.storage ==> s == Step(Ok(None), m)
    ensures m.deserializeSet && Prefix(refreshToken) in m.storage ==>
      var k := Prefix(refreshToken);
      var r := m.storage[k];
      var matches := StoredDigest(h, secret, refreshToken) == r.code2;
      && (!matches ==> s == Step(Ok(None), m))
      && (matches && m.lastNowSec.None? ==> s == Step(Err(CurrentTimeUndefined), m))
      && (matches && m.lastNowSec.Some? && !m.serializeSet ==> s == Step(Err(SerializeNotCallable), m))
      && (s.out.Ok? && s.out.value.Some? <==> matches && m.lastNowSec.Some? && m.serializeSet)
      && (s.out.Ok? && s.out.value.Some? ==>
            var pair := s.out.value.value;
            && k <= pair.accessToken && k <= pair.refreshToken
            && |pair.accessToken| == |pair.refreshToken| == |k| + TailLength
            && s.next == m.(storage := m.storage[k := PairRecord(h, secret, pair, m.lastNowSec.value,
                                                                 m.policy.accessTokenExpTimeSec, None)]))
  {
    if !m.deserializeSet then Step(Err(DeserializeCallbackRequired), m)
    else
      var k := Prefix(refreshToken);
      if k !in m.storage then Step(Ok(None), m)
      else
        var r := m.storage[k];
        if StoredDigest(h, secret, refreshToken) != r.code2 then Step(Ok(None), m)
        else if m.lastNowSec.None? then Step(Err(CurrentTimeUndefined), m)
        else if !m.serializeSet then Step(Err(SerializeNotCallable), m)
        else
          var pair := IssuePair(h, k, secret, accessSalt, refreshSalt);
          var rec := PairRecord(h, secret, pair, m.lastNowSec.value, m.policy.accessTokenExpTimeSec, None);
          Step(Ok(Some(pair)), m.(storage := m.storage[k := rec]))
  }
}

=== FILE: tokens.dfy ===
/**
 * The cryptographic primitives the token manager relies on, kept abstract.
 * SHA-1 and HMAC-SHA1 both produce 40 hexadecimal characters; their internals
 * are not modelled, so every property below holds for ANY pair of functions
 * with that output length.
 */
module Crypto {

  /** A SHA-1 digest as the host library returns it: 40 characters. */
  type Hex40 = s: string | |s| == 40 witness seq(40, _ => '0')

  /** `hmacSha1(key, data)` and `sha1(data)` as the host library computes them. */
  datatype Primitives = Primitives(hmacSha1: (string, string) -> Hex40, sha1: string -> Hex40)
}

/** The two helpers of lib/index.js: the lookup-key derivation and the token generator. */
module Tokens {
  import opened Wrappers
  import opened Crypto

  /** Length of a lookup key, and so of the prefix that every issued string carries. */
  const KeyLength := 8
  /** Length of the random tail: a SHA-1 digest with its first 8 characters dropped. */
  const TailLength := 32
  /** Length of every issued string built on an 8-character key. */
  const TokenLength := KeyLength + TailLength

  /** JavaScript truthiness of an optional string: absent and "" are both false. */
  predicate Truthy(secret: Option<string>) {
    secret.Some? && secret.value != ""
  }

  /** The key under which `encryptKey` hashes: the secret, or the literal 'secret' when it is falsy. */
  function KeySecret(secret: Option<string>): string {
    if Truthy(secret) then secret.value else "secret"
  }

  /**
   * The digest persisted for an issued string, and recomputed from a presented one:
   * its HMAC under a truthy secret, the string itself otherwise.
   */
  function StoredDigest(h: Primitives, secret: Option<string>, issued: string): string {
    if Truthy(secret) then h.hmacSha1(secret.value, issued) else issued
  }

  /** The secret of the exchange-code flow: the redirect URI, prefixed by a truthy secret and '|'. */
  function FinalSecret(secret: Option<string>, redirectUri: string): string {
    if Truthy(secret) then secret.value + "|" + redirectUri else redirectUri
  }

  /** HMAC keeps two keys apart on `data`: distinct keys give `data` distinct MACs. */
  predicate KeysSeparate(h: Primitives, key1: string, key2: string, data: string) {
    key1 != key2 ==> h.hmacSha1(key1, data) != h.hmacSha1(key2, data)
  }

  /** `s.slice(0, 8)`: the lookup key a presented string names (the whole string when shorter). */
  function Prefix(s: string): (p: string)
    ensures |p| == if |s| < KeyLength then |s| else KeyLength
    ensures p <= s
  {
    if |s| < KeyLength then s else s[..KeyLength]
  }

  /** `encryptKey(key, secret)`: the first 8 characters of the keyed hash of the caller's identifier. */
  function EncryptKey(h: Primitives, key: string, secret: Option<string>): (k: string)
    ensures |k| == KeyLength
    ensures k <= h.hmacSha1(KeySecret(secret), key)
  {
    h.hmacSha1(KeySecret(secret), key)[..KeyLength]
  }

  /** What `generateToken` returns: the string handed to the caller and the digest to persist. */
  datatype TokenObject = TokenObject(toIssue: string, toStore: string)

  /** The random tail of a token drawn from `salt`: the SHA-1 of the salt without its first 8 characters. */
  function Tail(h: Primitives, salt: string): (t: string)
    ensures |t| == TailLength
  {
    h.sha1(salt)[KeyLength..]
  }

  /**
   * `generateToken(encryptedKey, date, secret)` with the random salt made an input.
   * The issued string starts with the lookup key and is followed by the tail;
   * the stored value is what `StoredDigest` recomputes from the issued string.
   */
  function GenerateToken(h: Primitives, encryptedKey: string, salt: string, secret: Option<string>): (t: TokenObject)
    ensures |t.toIssue| == |encryptedKey| + TailLength
    ensures encryptedKey <= t.toIssue
    ensures t.toIssue[|encryptedKey|..] == Tail(h, salt)
    ensures t.toStore == StoredDigest(h, secret, t.toIssue)
  {
    var toIssue := encryptedKey + Tail(h, salt);
    TokenObject(toIssue, StoredDigest(h, secret, toIssue))
  }

  /** A token issued under an 8-character key is 40 characters long and names that key. */
  lemma IssuedTokenShape(h: Primitives, encryptedKey: string, salt: string, secret: Option<string>)
    requires |encryptedKey| == KeyLength
    ensures |GenerateToken(h, encryptedKey, salt, secret).toIssue| == TokenLength
    ensures Prefix(GenerateToken(h, encryptedKey, salt, secret).toIssue) == encryptedKey
  {
  }

  /** Under a truthy secret the stored value is an HMAC, 40 characters; otherwise it is the issued string. */
  lemma StoredDigestShape(h: Primitives, secret: Option<string>, issued: string)
    ensures Truthy(secret) ==> |StoredDigest(h, secret, issued)| == 40
    ensures !Truthy(secret) ==> StoredDigest(h, secret, issued) == issued
  {
  }

  /** Two tokens drawn under the same key coincide exactly when their salts hash to the same tail. */
  lemma TokensDifferIffTailsDiffer(h: Primitives, encryptedKey: string, salt1: string, salt2: string, secret: Option<string>)
    ensures GenerateToken(h, encryptedKey, salt1, secret).toIssue == GenerateToken(h, encryptedKey, salt2, secret).toIssue
            <==> Tail(h, salt1) == Tail(h, salt2)
  {
  }

  /** An absent secret, an empty one and the literal 'secret' all derive the same lookup key. */
  lemma FalsySecretKeysCollide(h: Primitives, key: string)
    ensures EncryptKey(h, key, None) == EncryptKey(h, key, Some(""))
    ensures EncryptKey(h, key, None) == EncryptKey(h, key, Some("secret"))
  {
  }

  /** Without a truthy secret, the exchange-code secret is the redirect URI alone. */
  lemma FinalSecretFolding(secret: Option<string>, redirectUri: string)
    ensures !Truthy(secret) ==> FinalSecret(secret, redirectUri) == redirectUri
    ensures Truthy(secret) ==> FinalSecret(secret, redirectUri)[..|secret.value|] == secret.value
    ensures Truthy(Some(FinalSecret(secret, redirectUri))) <==> Truthy(secret) || redirectUri != ""
  {
  }

  /** Under one secret, distinct redirect URIs give distinct exchange secrets. */
  lemma SameSecretOtherUri(secret: Option<string>, redirectUri: string, otherUri: string)
    requires redirectUri != otherUri
    ensures FinalSecret(secret, redirectUri) != FinalSecret(secret, otherUri)
  {
    if Truthy(secret) {
      var joined := secret.value + "|";
      assert FinalSecret(secret, redirectUri)[|joined|..] == redirectUri;
      assert FinalSecret(secret, otherUri)[|joined|..] == otherUri;
    }
  }

  /**
   * The secret and the redirect URI are joined without escaping: a secret can be moved
   * into the redirect URI, with no secret given, and the exchange secret stays the same.
   */
  lemma SecretFoldsIntoRedirect(secret: Option<string>, redirectUri: string)
    requires Truthy(secret)
    ensures FinalSecret(None, secret.value + "|" + redirectUri) == FinalSecret(secret, redirectUri)
  {
  }
}

=== FILE: wrappers.dfy ===
/** The Option and Result datatypes used throughout the model. */
module Wrappers {

  /** An optional value: JavaScript's `null`/`undefined` versus a present value. */
  datatype Option<+T> = None | Some(value: T)

  /** A completed operation (`Ok`) or a rejected one (`Err`, a thrown error). */
  datatype Result<+T, +E> = Ok(value: T) | Err(error: E)
}
